=== FILE: README.md ===
# Provisioning stores, allocation codec, upload metrics and filecoin wiring

A Dafny model of five small pieces of the w3up infrastructure:

- **Allocation record codec** (`Allocations`, with `BigIntText`): an `Allocation` is written as a flat
  record of strings and read back. `validate` checks the schema, and `encodeKey` and `lister.encodeKey`
  build the store keys. `lister.decode` is the same function as `decode`, so `Allocations.Decode`
  models both. Link and ISO-date text are the fields of a `Syntax` record. The round trip is proved
  for every `Syntax` whose parsers read back what its printers write. The `bigint` ↔ string conversion
  is modelled concretely, following ECMAScript's StringToBigInt rules.
- **Provisioning stores** (`Dynamo`, `Provisioning`, `ConsumerTable`, `ProvisionsStorage`,
  `ProvisionStore`). Each DynamoDB table is a map from the consumer to an item of string attributes.
  Conditional `PutItem` is modelled with a small evaluator for condition expressions. The evaluator
  refuses requests whose value placeholders do not match their condition. Each store operation is a
  pure function `(state, input) → (settlement, state')`. A settlement says whether the promise
  resolves with `{ ok }` / `{ error }` or rejects with a thrown error.
- **Upload-add metric selection** (`UploadAddMetrics`): the filter-then-flatMap over an invocation
  batch, and the single counter call.
- **Filecoin stack wiring** (`FilecoinStack`): the piece-table stream filters become a routing
  function from change records to consumers. The module also models the carpark event → compute
  message mapping, the batch sizes and timeouts, and the deal-tracking schedule.

The piece-status handler (`functions/handle-piece-status-update.main`) is not part of this model; only
the stream filter that feeds it is (stacks/filecoin-stack.js:167-199). That filter asks for the event
name `UPDATE` and a new `stat` of ACCEPTED or INVALID. `FilecoinStack.Stack` holds the filters as the
stack configures them, `PieceTableConsumersAsWritten`. `FilecoinStack.Route` is the corrected routing,
with `MODIFY`; the mismatch is reported under Findings.

Two corrected definitions are used by the rest of the model. `ConsumerTable.Insert` uses the corrected
condition, and so `ProvisionStore.Put` is composed with it. The code as written is modelled alongside:
`ConsumerTable.InsertAsWritten` and `ProvisionStore.PutAsWritten`.

## Model

| member | source | states |
|---|---|---|
| Allocations.Validate | billing/data/allocations.js:14-23 | accepts exactly a DID space, a version-1 cause and a non-negative size, and returns the input unchanged; the first failing field in declaration order is reported: the space field exactly when the space is not a DID, the cause field exactly when the space is a DID and the cause is not version 1, and the size field exactly when both pass and the size is negative |
| Allocations.EncodeKey | billing/data/allocations.js:26 | always succeeds; the key record carries the multihash |
| Allocations.EncodeKeyInjective | billing/data/allocations.js:26 | `encodeKey` loses nothing: two keys get equal key records if and only if they are the same key |
| Allocations.Encode | billing/data/allocations.js:29-47 | fails if and only if the insertion date is invalid, with an `EncodeFailure` whose message is `encoding allocation record: Invalid time value`; on success, space and multihash pass through unchanged and the size text reads back as the size |
| Allocations.Decode | billing/data/allocations.js:50-68 | succeeds if and only if the space is a DID, the cause parses as a link and the size parses as a BigInt; space and multihash pass through unchanged; every failure is a `DecodeFailure` whose message starts with `decoding allocation record: `, and the first failing reader, in the order space, cause, size, decides it; a size that does not parse gives the BigInt conversion error |
| Allocations.ListerEncodeKey | billing/data/allocations.js:72-83 | always writes the space; writes `insertedAt` if and only if a date is given; throws the `RangeError` (not caught) if and only if the given date is invalid |
| Allocations.RoundTrip | billing/data/allocations.js:29-68 | for every allocation with a DID space and a valid date, `decode(encode(a))` is `a` |
| Allocations.ValidatedRoundTrip | billing/data/allocations.js:14-68 | every allocation that `validate` accepts and whose date is valid round-trips through `encode` and `decode` |
| Allocations.ValidatedInvalidDateFailsToEncode | billing/data/allocations.js:18-46 | `validate` accepts an invalid date; `encode` then returns an `EncodeFailure`, so the round trip needs a valid date |
| Allocations.NegativeSizeDecodes | billing/data/allocations.js:19-58 | `decode` does not check the size's sign: for every negative `n`, a record whose size text is `n.toString()` decodes to size `n`, and `validate` rejects that allocation on its size |
| Allocations.ListerKeyRoundTrip | billing/data/allocations.js:75-77 | the date that `lister.encodeKey` writes reads back as the date it was given |
| BigIntText.ParseShowInt | billing/data/allocations.js:37-58 | `BigInt(n.toString())` is `n` for every integer, so sizes round-trip |
| ConsumerTable.Insert | upload-api/tables/consumer.js:62-94 | with the corrected condition and no fault: succeeds if and only if the consumer has no item or holds the same provision, and then stores `{consumer, provider, order, cause, insertedAt}`; otherwise throws `ConflictError`. A fault is rethrown unchanged unless its message is the conditional failure's. A thrown insert leaves the table unchanged |
| ConsumerTable.InsertAsWritten | upload-api/tables/consumer.js:73-93 | with the condition as written, every insert throws and leaves the table unchanged; with no fault, it throws the database's validation error |
| ConsumerTable.ConditionHolds | upload-api/tables/consumer.js:77-83 | the corrected request is well formed; its condition holds if and only if there is no item or the item records the same provision |
| ConsumerTable.ConditionAsWrittenFailsOnStoredItem | upload-api/tables/consumer.js:65-77 | for any binding of its placeholders, the condition as written is false on every item this table stores, because stored items have no `cid` attribute |
| ConsumerTable.FirstInsertRefusedAsWritten | upload-api/tables/consumer.js:77-83 | as written, even the first insert into an empty table throws the validation error for an undefined placeholder |
| ConsumerTable.ReinsertSucceeds | upload-api/tables/consumer.js:73-85 | with the corrected condition, inserting the same provision again succeeds and only refreshes `insertedAt` |
| ConsumerTable.DifferentProvisionConflicts | upload-api/tables/consumer.js:86-90 | once a consumer has an item, inserting a different provision for it throws `ConflictError` and leaves the table unchanged |
| ConsumerTable.InsertKeepsKeying | upload-api/tables/consumer.js:65-76 | inserts preserve the invariant that every item is stored under its own consumer |
| ConsumerTable.InsertThenHasStorageProvider | upload-api/tables/consumer.js:73-118 | after a successful insert the consumer has a provider; a thrown insert changes no answer, and no insert changes the answer for another consumer |
| ConsumerTable.HasStorageProvider | upload-api/tables/consumer.js:105-119 | true if and only if the table has an item for the consumer |
| ConsumerTable.Count | upload-api/tables/consumer.js:124-130 | the described item count, or -1 if and only if the table or its count is absent |
| Provisioning.ConflictError | upload-api/stores/provisions.js:29-38 | the conflict is an error named `ConflictError` |
| Provisioning.HoldsConditionOn | upload-api/stores/provisions.js:136 | `attribute_not_exists(consumer) OR (...)` holds if and only if there is no item, the item has no consumer, or the item agrees on all four compared attributes; it names exactly four placeholders |
| ProvisionsStorage.ConditionHolds | upload-api/stores/provisions.js:136-142 | the put request is well formed; its condition holds if and only if there is no item or the item records the same `cid`, `consumer`, `provider` and `customer` |
| ProvisionsStorage.Put | upload-api/stores/provisions.js:125-156 | with no fault: resolves `{ ok: {} }` if and only if the consumer is vacant or holds an identical item, and then stores the row; otherwise resolves `{ error: ConflictError }` with the state unchanged. A fault is rethrown unless its message is `The conditional request failed`. The consumers table never changes |
| ProvisionsStorage.PutIdenticalLeavesState | upload-api/stores/provisions.js:126-143 | putting an item identical to the stored one succeeds and changes nothing |
| ProvisionsStorage.PutIdempotent | upload-api/stores/provisions.js:126-155 | a second identical put after a successful one gives the same result and the same state |
| ProvisionsStorage.PutDifferingConflicts | upload-api/stores/provisions.js:144-150 | a put for a provisioned consumer that differs in any field returns `ConflictError` and leaves the state unchanged |
| ProvisionsStorage.PutKeepsHasStorageProvider | upload-api/stores/provisions.js:105-134 | `put` alone never changes the answer of `hasStorageProvider`, for any consumer |
| ProvisionsStorage.HasStorageProvider | upload-api/stores/provisions.js:105-119 | `{ ok: true }` if and only if the consumers table has an item for the consumer |
| ProvisionsStorage.Count | upload-api/stores/provisions.js:161-167 | the consumers table's described item count, or -1 if and only if it is absent |
| ProvisionStore.Put | upload-api/stores/provisions.js:58-84 | asks first for a subscription ordered by the customer. A subscription failure rejects the call, and no consumer insert is issued. Otherwise it issues the consumer insert with `order = customer`, and resolves `{ ok: {} }` if and only if that insert succeeds. Every consumer-insert failure, a database fault included, is returned as `{ error }` with the consumer table unchanged, and success is `{ ok: {} }`, after which the consumer table is the old one with exactly the consumer's row written, so the consumer has a provider and no other row changes. Composed with the corrected consumer insert |
| ProvisionStore.PutAsWritten | upload-api/stores/provisions.js:58-84 | composed with the consumer insert as written: it never resolves `{ ok: {} }` and never writes the consumer table. A subscription failure rejects the call; otherwise the call resolves `{ error }`, which is the undefined-placeholder validation error when there is no fault |
| ProvisionStore.PutAsWrittenNeverRecords | upload-api/stores/provisions.js:58-84 | on an empty consumer table with no faults, `put` as written resolves with the validation error, while the corrected `put` resolves `{ ok: {} }` |
| ProvisionStore.OneSubscriptionOrderPerCustomer | upload-api/stores/provisions.js:60-68 | two provisions for one customer ask for subscriptions under the same order key (the customer), whatever their spaces |
| ProvisionStore.PutAgainSucceeds | upload-api/stores/provisions.js:72-79 | provisioning a space again with the same provision succeeds again |
| ProvisionStore.PutOtherProviderReturnsConflict | upload-api/stores/provisions.js:72-82 | provisioning a provisioned space with another provider resolves with `{ error: ConflictError }`; it does not reject, and the consumer table is unchanged |
| ProvisionStore.HasStorageProvider | upload-api/stores/provisions.js:49-51 | `{ ok }` holding whether the consumer table has an item for the consumer |
| ProvisionStore.Count | upload-api/stores/provisions.js:89-91 | the consumer table's count: -1 if and only if there is no described count; otherwise the described item count, unchanged |
| UploadAddMetrics.FindUploadAdd | ucan-invocation/functions/metrics-upload-add-total.js:40 | finds a capability if and only if some capability has `can == "upload/add"`; the one found is the first such capability |
| UploadAddMetrics.SelectionDistributes | ucan-invocation/functions/metrics-upload-add-total.js:39-41 | selection distributes over concatenation of batches, so output order follows invocation order and then capability order |
| UploadAddMetrics.ForwardedExactly | ucan-invocation/functions/metrics-upload-add-total.js:39-41 | a capability is forwarded if and only if some receipt that carries an `upload/add` capability carries it, whatever its own `can` |
| UploadAddMetrics.OutputLength | ucan-invocation/functions/metrics-upload-add-total.js:39-41 | the output length is the sum of the `att` lengths of the selected invocations |
| UploadAddMetrics.UpdateUploadAddTotal | ucan-invocation/functions/metrics-upload-add-total.js:38-44 | calls the counter exactly once, with the selected capabilities, even when there are none |
| FilecoinStack.InsertOnlyMatches | stacks/filecoin-stack.js:134-138 | the `INSERT` filter matches a record if and only if it reports an insert |
| FilecoinStack.RouteIsIntended | stacks/filecoin-stack.js:111-201 | with the corrected filter, an insert reaches both the content-claim and the filecoin-submit consumers. A modification reaches only the status-update consumer, and only when the new `stat` is ACCEPTED or INVALID. A removal reaches no consumer |
| FilecoinStack.StatusUpdateNeverReachedAsWritten | stacks/filecoin-stack.js:188-199 | with the filter as written, no change record reaches the status-update consumer; the other two receive exactly the inserts |
| FilecoinStack.ToComputeQueue | stacks/filecoin-stack.js:237-261 | an event reaches the compute queue if and only if its source is the carpark source; the message carries the detail's region, bucket name and key, unchanged |
| FilecoinStack.OneMessagePerInvocation | stacks/filecoin-stack.js:56-60 | with batch size one, any in-order batching gives every invocation exactly one message, in order |
| FilecoinStack.ConfiguredQueueOneMessagePerInvocation | stacks/filecoin-stack.js:47-228 | for every queue the stack configures, any in-order batching within its batch size gives every invocation exactly one message, in order |
| FilecoinStack.ConfiguredStreamOneMessagePerInvocation | stacks/filecoin-stack.js:126-199 | for every piece-table stream consumer the stack configures, any in-order batching within its batch size gives every invocation exactly one record, in order |
| FilecoinStack.Stack | stacks/filecoin-stack.js:47-235 | three queues and the three piece-table stream consumers with their filters as written; every one of them has batch size one; the compute queue's visibility timeout equals the compute function's timeout, 15 minutes; deals are tracked every 5 minutes |
| Dynamo.QueryCount | upload-api/stores/provisions.js:116-118 | a query on the hash key returns at most one item, and one if and only if the key is present |
| Dynamo.ItemCountOrMinusOne | upload-api/stores/provisions.js:166 | `ItemCount ?? -1`: never below -1, and -1 if and only if the table or its count is absent |

## Left out

- The piece status lifecycle: the handlers named in `stacks/filecoin-stack.js` and the `Status`
  definition are not part of this model. `Status` is reduced to ACCEPTED, INVALID and "any other".
  No transition rules are modelled.
- Link and date text: `Link.parse`/`toString` and `toISOString`/`new Date(string)` are the fields of
  `Allocations.Syntax`. Their round trip is a hypothesis of the lemmas, not a fact proved here.
- `billing/data/lib.js` is not part of this model. `Schema.date()` is taken to check only that the value
  is a `Date`. The DID reader's message text and the schema's error objects are stand-ins. The `cause`
  property of `EncodeFailure`/`DecodeFailure` is not modelled.
- Allocations.Validate: checks only the schema's refinements (DID prefix, link version 1,
  non-negative size). The types of an untyped input are not modelled.
- Allocations.Decode: takes a record that has all five string attributes, as the record type declares.
  Records that lack an attribute, or hold a non-string value, are not modelled.
- ProvisionStore.Put: is composed with the corrected consumer insert (`ConsumerTable.Insert`), so its
  success clauses, `PutAgainSucceeds` and `PutOtherProviderReturnsConflict` describe the intended store.
  The code as written never resolves `{ ok: {} }` once the subscription succeeds; that behaviour is
  `ProvisionStore.PutAsWritten`.
- ConsumerTable.Insert: the corrected condition is modelled without expression attribute names, so the
  rule that the reserved word `order` must be aliased (`#order`) is not checked by the model.
- Dynamo.Put: its validation messages omit the list of offending placeholders. Every thrown value is
  taken to be an `Error`. The real database has more condition functions and more validation rules than
  this model.
- Tables are keyed by the consumer alone. Query and `DescribeTable` errors are not modelled. The item
  count that `DescribeTable` reports is an input, because the service only refreshes it periodically.
- The subscription table (`upload-api/tables/subscription.js`) is not part of this model. How its
  insert settles is a parameter of `ProvisionStore.Put`.
- Clocks, the network and the environment: `new Date()` is the `now` parameter, and database faults are
  the `fault` parameter. `process.env`, Sentry, AWS SDK command construction and `marshall` are left
  out. The `services` field of both stores is left out.
- `UploadAddMetrics`: the Kinesis parsing, the metrics table's counter and `constants.js` are not part
  of this model. `UPLOAD_ADD` is taken to be `upload/add`, and the content types are an enumeration.
- `FilecoinStack`: handler environments, permissions and bindings are left out. The carpark event
  source name (`carpark/event-bus/source.js`) is a parameter. Event detail fields are taken to be
  present.
- `upload-api/monitor.js`, `billing/cli/bin.js`, `billing/cli/src/diff.js` and the end-to-end tests
  are left out. They are sampling, CLI plumbing, and tests against deployed services.
- `ucan-invocation/test/functions/metrics-store-add-size-total.test.js` is left out: the function it
  tests is not part of this model.

## Findings

| source | as written | input that shows it | evidently intended | confidence | as-written member | corrected member |
|---|---|---|---|---|---|---|
| upload-api/tables/consumer.js:77-83 | the condition compares `cid` and `customer` through `:cid` and `:customer`, but the request supplies only `:cause`, `:consumer`, `:provider` and `:order`; stored items have no `cid` or `customer` attribute | any insert, for example the first one into an empty table: the database refuses a condition with an undefined placeholder, and `insert` rethrows that refusal (`ConsumerTable.FirstInsertRefusedAsWritten`); even if the placeholders were bound, the condition is false on every stored item (`ConsumerTable.ConditionAsWrittenFailsOnStoredItem`) | compare `cause` and `order` against `:cause` and `:order`, so that a new consumer or the same provision is accepted and anything else is a `ConflictError`; because `order` is a DynamoDB reserved word, the attribute must be written `#order` and named in `ExpressionAttributeNames` | medium, not executed | ConsumerTable.InsertAsWritten | ConsumerTable.ReinsertSucceeds |
| stacks/filecoin-stack.js:188-199 | the status-update consumer filters on `eventName: ['UPDATE']` | a piece-table record for a modification with new `stat` ACCEPTED: DynamoDB streams name it `MODIFY`, so no pattern of that consumer matches, and no record ever reaches it | filter on `MODIFY`, so that terminal status updates reach the status-update consumer | high, not executed | FilecoinStack.StatusUpdateNeverReachedAsWritten | FilecoinStack.RouteIsIntended |

=== FILE: allocations.dfy ===
/**
 * The allocation record codec of the billing store. An `Allocation` (a space
 * DID, a multihash, the causing invocation's link, an insertion date and a
 * size) is written as a flat record of strings and read back; errors are
 * returned as values, never thrown. The textual forms of links and dates are
 * not defined here: they are the fields of a `Syntax`, and the round trip is
 * proved for every `Syntax` whose parsers read back what its printers write.
 */
module Allocations {
  import opened Variant
  import BigIntText

  /** A CID: its version, its codec code and its digest. */
  datatype Link = Link(version: nat, code: nat, digest: seq<int>)

  /** A JavaScript `Date`: a time value in milliseconds since the epoch, or the invalid date. */
  datatype Date = Instant(ms: int) | InvalidDate

  /** The largest magnitude of a JavaScript time value (100 000 000 days in milliseconds). */
  const MaxTimeValue: int := 8_640_000_000_000_000

  predicate InTimeRange(ms: int)
  {
    -MaxTimeValue <= ms <= MaxTimeValue
  }

  predicate IsValidDate(d: Date)
  {
    d.Instant? && InTimeRange(d.ms)
  }

  /**
   * The textual forms the codec uses but does not define: `Link#toString` and
   * `Link.parse`, and `Date#toISOString` / `new Date(string)` on time values.
   */
  datatype Syntax = Syntax(
    linkText: Link -> string,
    parseLink: string -> Result<Link, Failure>,
    isoText: int -> string,
    parseIso: string -> Option<int>)

  /** Each parser reads back what its printer writes. */
  ghost predicate Lawful(sx: Syntax)
  {
    && (forall l :: sx.parseLink(sx.linkText(l)) == Ok(l))
    && (forall ms :: InTimeRange(ms) ==> sx.parseIso(sx.isoText(ms)) == Some(ms))
  }

  datatype Allocation = Allocation(space: string, multihash: string, cause: Link, insertedAt: Date, size: int)

  /** The store record: every attribute is a string. */
  datatype AllocationRecord = AllocationRecord(space: string, multihash: string, cause: string, insertedAt: string, size: string)

  datatype AllocationKey = AllocationKey(multihash: string)

  datatype KeyRecord = KeyRecord(multihash: string)

  /** The key of a listing: a space, and optionally the insertion date to list from. */
  datatype ListKey = ListKey(space: string, insertedAt: Option<Date>)

  datatype ListRecord = ListRecord(space: string, insertedAt: Option<string>)

  /** The fields the schema refines beyond their type. */
  datatype Field = SpaceField | CauseField | SizeField

  predicate IsDid(s: string)
  {
    |s| >= 4 && s[..4] == "did:"
  }

  /** `Schema.did().from(s)`: the string itself when it is a DID, otherwise the schema's error. */
  function ReadDid(s: string): (r: Result<string, Failure>)
    ensures r.Ok? <==> IsDid(s)
    ensures r.Ok? ==> r.ok == s
  {
    if IsDid(s) then Ok(s) else Error(Failure("SchemaError", "Expected a did: but got \"" + s + "\" instead"))
  }

  /** `Date#toISOString`: throws a `RangeError` on the invalid date. */
  function ToIsoString(sx: Syntax, d: Date): Result<string, Failure>
  {
    if IsValidDate(d) then Ok(sx.isoText(d.ms)) else Error(Failure("RangeError", "Invalid time value"))
  }

  /** `new Date(s)`: never throws; a string it cannot read gives the invalid date. */
  function DateFromString(sx: Syntax, s: string): (d: Date)
    ensures d.Instant? ==> IsValidDate(d)
  {
    match sx.parseIso(s)
    case Some(ms) => if InTimeRange(ms) then Instant(ms) else InvalidDate
    case None => InvalidDate
  }

  const EncodePrefix := "encoding allocation record: "
  const DecodePrefix := "decoding allocation record: "

  /**
   * `validate`: the schema accepts a DID space, a version-1 cause and a
   * non-negative size; it reports the first field, in declaration order, that
   * fails. The date field is checked only for being a `Date`.
   */
  function Validate(a: Allocation): (r: Result<Allocation, Field>)
    ensures r.Ok? <==> IsDid(a.space) && a.cause.version == 1 && a.size >= 0
    ensures r.Ok? ==> r.ok == a
    ensures r == Error(SpaceField) <==> !IsDid(a.space)
    ensures r == Error(CauseField) <==> IsDid(a.space) && a.cause.version != 1
    ensures r == Error(SizeField) <==> IsDid(a.space) && a.cause.version == 1 && a.size < 0
  {
    if !IsDid(a.space) then Error(SpaceField)
    else if a.cause.version != 1 then Error(CauseField)
    else if a.size < 0 then Error(SizeField)
    else Ok(a)
  }

  /** `encodeKey`: the key record keeps the multihash and nothing else. */
  function EncodeKey(k: AllocationKey): (r: Result<KeyRecord, Failure>)
    ensures r.Ok? && r.ok.multihash == k.multihash
  {
    Ok(KeyRecord(k.multihash))
  }

  /**
   * `encode`: fails exactly when the insertion date is invalid, with an
   * `EncodeFailure`; otherwise every field is written so that it reads back.
   */
  function Encode(sx: Syntax, a: Allocation): (r: Result<AllocationRecord, Failure>)
    ensures r.Ok? <==> IsValidDate(a.insertedAt)
    ensures r.Ok? ==> r.ok.space == a.space && r.ok.multihash == a.multihash
    ensures r.Ok? ==> BigIntText.ParseBigInt(r.ok.size) == Ok(a.size)
    ensures r.Error? ==> r.error == Failure("EncodeFailure", EncodePrefix + "Invalid time value")
  {
    BigIntText.ParseShowInt(a.size);
    match ToIsoString(sx, a.insertedAt)
    case Error(e) => Error(Failure("EncodeFailure", EncodePrefix + e.message))
    case Ok(iso) => Ok(AllocationRecord(a.space, a.multihash, sx.linkText(a.cause), iso, BigIntText.ShowInt(a.size)))
  }

  function DecodeFailure(e: Failure): Failure
  {
    Failure("DecodeFailure", DecodePrefix + e.message)
  }

  /**
   * `decode` (also `lister.decode`): fields are read in order (space, cause,
   * date, size); the first reader that throws decides the `DecodeFailure`.
   * The date never fails (an unreadable one is the invalid date), the
   * multihash is taken as it is, and the size is not checked for its sign.
   */
  function Decode(sx: Syntax, rec: AllocationRecord): (r: Result<Allocation, Failure>)
    ensures r.Ok? <==> IsDid(rec.space) && sx.parseLink(rec.cause).Ok? && BigIntText.ParseBigInt(rec.size).Ok?
    ensures r.Ok? ==> r.ok.space == rec.space && r.ok.multihash == rec.multihash
    ensures r.Ok? ==> Ok(r.ok.size) == BigIntText.ParseBigInt(rec.size)
    ensures r.Error? ==> r.error.name == "DecodeFailure" && DecodePrefix <= r.error.message
    ensures !IsDid(rec.space) ==> r == Error(DecodeFailure(ReadDid(rec.space).error))
    ensures IsDid(rec.space) && sx.parseLink(rec.cause).Error? ==> r == Error(DecodeFailure(sx.parseLink(rec.cause).error))
    ensures IsDid(rec.space) && sx.parseLink(rec.cause).Ok? && BigIntText.ParseBigInt(rec.size).Error? ==>
      r == Error(DecodeFailure(BigIntText.CannotConvert(rec.size)))
  {
    match ReadDid(rec.space)
    case Error(e) => Error(DecodeFailure(e))
    case Ok(space) =>
      match sx.parseLink(rec.cause)
      case Error(e) => Error(DecodeFailure(e))
      case Ok(cause) =>
        var insertedAt := DateFromString(sx, rec.insertedAt);
        match BigIntText.ParseBigInt(rec.size)
        case Error(e) => Error(DecodeFailure(e))
        case Ok(size) => Ok(Allocation(space, rec.multihash, cause, insertedAt, size))
  }

  /**
   * `lister.encodeKey`: always writes the space; writes the date exactly when
   * one is given. An invalid date makes `toISOString` throw, uncaught here.
   */
  function ListerEncodeKey(sx: Syntax, k: ListKey): (r: Completion<Result<ListRecord, Failure>>)
    ensures r.Returned? <==> k.insertedAt.None? || IsValidDate(k.insertedAt.value)
    ensures r.Returned? ==> r.value.Ok? && r.value.ok.space == k.space
    ensures r.Returned? ==> (r.value.ok.insertedAt.Some? <==> k.insertedAt.Some?)
    ensures r.Threw? ==> r.thrown == Failure("RangeError", "Invalid time value")
  {
    match k.insertedAt
    case None => Returned(Ok(ListRecord(k.space, None)))
    case Some(d) =>
      match ToIsoString(sx, d)
      case Error(e) => Threw(e)
      case Ok(iso) => Returned(Ok(ListRecord(k.space, Some(iso))))
  }

  /** Every allocation with a DID space and a valid date survives `encode` then `decode`. */
  lemma RoundTrip(sx: Syntax, a: Allocation)
    requires Lawful(sx)
    requires IsDid(a.space) && IsValidDate(a.insertedAt)
    ensures Encode(sx, a).Ok?
    ensures Decode(sx, Encode(sx, a).ok) == Ok(a)
  {
    var rec := Encode(sx, a).ok;
    assert sx.parseLink(sx.linkText(a.cause)) == Ok(a.cause);
    assert sx.parseIso(sx.isoText(a.insertedAt.ms)) == Some(a.insertedAt.ms);
  }

  /** So every allocation `validate` accepts, and whose date is valid, round-trips. */
  lemma ValidatedRoundTrip(sx: Syntax, a: Allocation)
    requires Lawful(sx)
    requires Validate(a).Ok? && IsValidDate(a.insertedAt)
    ensures Encode(sx, a).Ok? && Decode(sx, Encode(sx, a).ok) == Ok(Validate(a).ok)
  {
    RoundTrip(sx, a);
  }

  /** `validate` accepts an invalid date, and `encode` then fails: the round trip needs a valid date. */
  lemma ValidatedInvalidDateFailsToEncode(sx: Syntax, a: Allocation)
    requires Validate(a).Ok? && a.insertedAt == InvalidDate
    ensures Encode(sx, a).Error? && Encode(sx, a).error.name == "EncodeFailure"
  {
  }

  /** `encodeKey` loses nothing: two keys get the same key record exactly when they are the same key. */
  lemma EncodeKeyInjective(k1: AllocationKey, k2: AllocationKey)
    ensures EncodeKey(k1) == EncodeKey(k2) <==> k1 == k2
  {
  }

  /**
   * `decode` does not check the size's sign: a stored negative size decodes to
   * that size, giving an allocation that `validate` rejects on its size.
   */
  lemma NegativeSizeDecodes(sx: Syntax, space: string, multihash: string, cause: Link, ms: int, n: int)
    requires Lawful(sx) && IsDid(space) && cause.version == 1 && InTimeRange(ms) && n < 0
    ensures var r := Decode(sx, AllocationRecord(space, multihash, sx.linkText(cause), sx.isoText(ms), BigIntText.ShowInt(n)));
            r.Ok? && r.ok.size == n && Validate(r.ok) == Error(SizeField)
  {
    BigIntText.ParseShowInt(n);
    assert sx.parseLink(sx.linkText(cause)) == Ok(cause);
  }

  /** The date `lister.encodeKey` writes reads back as the date it was given. */
  lemma ListerKeyRoundTrip(sx: Syntax, k: ListKey)
    requires Lawful(sx)
    requires k.insertedAt.Some? && IsValidDate(k.insertedAt.value)
    ensures ListerEncodeKey(sx, k).Returned?
    ensures DateFromString(sx, ListerEncodeKey(sx, k).value.ok.insertedAt.value) == k.insertedAt.value
  {
    assert sx.parseIso(sx.isoText(k.insertedAt.value.ms)) == Some(k.insertedAt.value.ms);
  }
}

=== FILE: bigint_text.dfy ===
/**
 * The decimal text of a `bigint` (`BigInt.prototype.toString()`) and the
 * conversion of a string back to a `bigint` (`BigInt(string)`), following the
 * StringToBigInt rules of ECMAScript: surrounding white space is ignored, an
 * empty string is zero, `0x`/`0o`/`0b` select a radix, and a sign is allowed
 * only in front of decimal digits.
 */
module BigIntText {
  import opened Variant

  /** The value of `c` as a digit, or -1 when `c` is not a hexadecimal digit. */
  function DigitValue(c: char): int
  {
    if '0' <= c <= '9' then c as int - '0' as int
    else if 'a' <= c <= 'f' then c as int - 'a' as int + 10
    else if 'A' <= c <= 'F' then c as int - 'A' as int + 10
    else -1
  }

  predicate IsDigitIn(c: char, radix: nat)
  {
    0 <= DigitValue(c) < radix
  }

  predicate AllDigits(s: string, radix: nat)
  {
    forall i :: 0 <= i < |s| ==> IsDigitIn(s[i], radix)
  }

  /** The value of a string of digits in the given radix, most significant digit first. */
  function DigitsValue(s: string, radix: nat): nat
    requires AllDigits(s, radix)
  {
    if |s| == 0 then 0
    else DigitsValue(s[..|s| - 1], radix) * radix + DigitValue(s[|s| - 1])
  }

  function DigitChar(d: nat): (c: char)
    requires d < 10
    ensures DigitValue(c) == d
  {
    ('0' as int + d) as char
  }

  /** The decimal digits of `n`, most significant first, with no leading zero. */
  function ShowNat(n: nat): (s: string)
    ensures |s| >= 1 && AllDigits(s, 10)
    ensures s[0] == '0' ==> n == 0
    decreases n
  {
    if n < 10 then [DigitChar(n)] else ShowNat(n / 10) + [DigitChar(n % 10)]
  }

  /** `BigInt.prototype.toString()`: decimal digits, after a '-' when negative. */
  function ShowInt(n: int): string
  {
    if n < 0 then "-" + ShowNat(-n) else ShowNat(n)
  }

  /** ECMAScript's StrWhiteSpaceChar: white space and line terminators. */
  predicate IsWhiteSpace(c: char)
  {
    var k := c as int;
    || (0x09 <= k <= 0x0D) || k == 0x20 || k == 0xA0 || k == 0x1680
    || (0x2000 <= k <= 0x200A) || k == 0x2028 || k == 0x2029
    || k == 0x202F || k == 0x205F || k == 0x3000 || k == 0xFEFF
  }

  function TrimStart(s: string): string
  {
    if |s| > 0 && IsWhiteSpace(s[0]) then TrimStart(s[1..]) else s
  }

  function TrimEnd(s: string): string
  {
    if |s| > 0 && IsWhiteSpace(s[|s| - 1]) then TrimEnd(s[..|s| - 1]) else s
  }

  function Trim(s: string): string
  {
    TrimEnd(TrimStart(s))
  }

  /** The `SyntaxError` that `BigInt` throws for a string it cannot read. */
  function CannotConvert(s: string): Failure
  {
    Failure("SyntaxError", "Cannot convert " + s + " to a BigInt")
  }

  /** A non-empty run of digits in `radix`; `source` is the whole string, for the error. */
  function UnsignedDigits(digits: string, radix: nat, source: string): Result<int, Failure>
  {
    if |digits| > 0 && AllDigits(digits, radix) then Ok(DigitsValue(digits, radix))
    else Error(CannotConvert(source))
  }

  /** `BigInt(s)` for a string `s`. */
  function ParseBigInt(s: string): (r: Result<int, Failure>)
    ensures r.Error? ==> r.error == CannotConvert(s)
  {
    var t := Trim(s);
    if |t| == 0 then Ok(0)
    else if |t| >= 2 && t[0] == '0' && (t[1] == 'x' || t[1] == 'X') then UnsignedDigits(t[2..], 16, s)
    else if |t| >= 2 && t[0] == '0' && (t[1] == 'o' || t[1] == 'O') then UnsignedDigits(t[2..], 8, s)
    else if |t| >= 2 && t[0] == '0' && (t[1] == 'b' || t[1] == 'B') then UnsignedDigits(t[2..], 2, s)
    else if t[0] == '-' then
      (match UnsignedDigits(t[1..], 10, s)
       case Ok(v) => Ok(-v)
       case Error(e) => Error(e))
    else if t[0] == '+' then UnsignedDigits(t[1..], 10, s)
    else UnsignedDigits(t, 10, s)
  }

  /** Reading the digits `ShowNat` writes gives the number back. */
  lemma {:induction false} DigitsValueShowNat(n: nat)
    ensures DigitsValue(ShowNat(n), 10) == n
    decreases n
  {
    if n >= 10 {
      var s := ShowNat(n);
      assert s[..|s| - 1] == ShowNat(n / 10);
      DigitsValueShowNat(n / 10);
    } else {
      var s := ShowNat(n);
      assert s[..|s| - 1] == [];
    }
  }

  /** Trimming leaves alone a string that neither starts nor ends with white space. */
  lemma TrimNoWhiteSpace(s: string)
    requires |s| > 0 && !IsWhiteSpace(s[0]) && !IsWhiteSpace(s[|s| - 1])
    ensures Trim(s) == s
  {
  }

  /** The size round trip: `BigInt(n.toString())` is `n`, for every integer, negative ones included. */
  lemma ParseShowInt(n: int)
    ensures ParseBigInt(ShowInt(n)) == Ok(n)
  {
    var s := ShowInt(n);
    if n < 0 {
      var d := ShowNat(-n);
      assert s[1..] == d;
      TrimNoWhiteSpace(s);
      DigitsValueShowNat(-n);
    } else {
      TrimNoWhiteSpace(s);
      DigitsValueShowNat(n);
    }
  }
}

=== FILE: consumer_table.dfy ===
/**
 * The consumer table: one item per consumer space, recording the provider it
 * consumes, the order, the causing invocation and when it was inserted.
 * `insert` is a conditional put whose failed condition is thrown as a
 * `ConflictError`; any other error is rethrown unchanged.
 *
 * The condition the source writes compares attributes `cid` and `customer`
 * through placeholders `:cid` and `:customer`, but the request supplies
 * `:cause` and `:order` instead. `InsertAsWritten` keeps that request;
 * `Insert` compares the attributes the supplied values were meant for.
 */
module ConsumerTable {
  import opened Variant
  import Dynamo
  import opened Provisioning

  datatype ConsumerInput = ConsumerInput(consumer: string, provider: string, order: string, cause: string)

  /** The item `insert` writes, stamped with the insertion time. */
  function RowItem(item: ConsumerInput, insertedAt: string): Dynamo.Item
  {
    map["consumer" := item.consumer, "provider" := item.provider, "order" := item.order,
        "cause" := item.cause, "insertedAt" := insertedAt]
  }

  /** The expression attribute values the request supplies. */
  function Values(item: ConsumerInput): map<string, string>
  {
    map[":cause" := item.cause, ":consumer" := item.consumer, ":provider" := item.provider, ":order" := item.order]
  }

  /** The condition as the source writes it. */
  const ConditionAsWritten := ConditionOn("cid", ":cid", "customer", ":customer")

  /**
   * The condition the supplied values are for. `order` is a DynamoDB reserved
   * word, so a real request must name it through an expression attribute name
   * such as `#order`; attribute names are not part of this model.
   */
  const Condition := ConditionOn("cause", ":cause", "order", ":order")

  /** The stored item records the same provision as `item`. */
  predicate SameProvision(stored: Dynamo.Item, item: ConsumerInput)
  {
    && "cause" in stored && stored["cause"] == item.cause
    && "consumer" in stored && stored["consumer"] == item.consumer
    && "provider" in stored && stored["provider"] == item.provider
    && "order" in stored && stored["order"] == item.order
  }

  /** Every item is stored under its own consumer. */
  ghost predicate KeyedByConsumer(t: Dynamo.Table)
  {
    forall k :: k in t ==> "consumer" in t[k] && t[k]["consumer"] == k
  }

  /** `insert` with a given condition: the put, then how its answer settles the call. */
  function InsertWith(condition: Dynamo.Condition, t: Dynamo.Table, item: ConsumerInput, now: string, fault: Option<Failure>)
    : (r: (Completion<()>, Dynamo.Table))
    ensures r.0.Threw? ==> r.1 == t
    ensures r.0.Threw? && Dynamo.IsConditionalFailure(r.0.thrown) ==> fault.Some?
  {
    var req := Dynamo.PutRequest(item.consumer, RowItem(item, now), condition, Values(item));
    var (resp, t') := Dynamo.Put(t, req, fault);
    match resp
    case Accepted => (Returned(()), t')
    case Rejected(e) =>
      if Dynamo.IsConditionalFailure(e) then (Threw(ConflictError(item.consumer, item.provider)), t')
      else (Threw(e), t')
  }

  /**
   * `insert` as the source writes it: the request names placeholders it does
   * not supply and supplies values it does not use, so the database refuses
   * it and the refusal is rethrown; the table never changes.
   */
  function InsertAsWritten(t: Dynamo.Table, item: ConsumerInput, now: string, fault: Option<Failure>)
    : (r: (Completion<()>, Dynamo.Table))
    ensures r.1 == t && r.0.Threw?
    ensures fault.None? ==> r.0.thrown == Dynamo.UndefinedValue
  {
    InsertWith(ConditionAsWritten, t, item, now, fault)
  }

  /**
   * `insert` with the condition its values are for: with no fault, it succeeds
   * exactly when the consumer has no item or has one for the same provision,
   * and then stores the new item; otherwise it throws a `ConflictError`. A
   * fault is rethrown unchanged unless its message is the conditional
   * failure's. A thrown insert changes nothing.
   */
  function Insert(t: Dynamo.Table, item: ConsumerInput, now: string, fault: Option<Failure>)
    : (r: (Completion<()>, Dynamo.Table))
    ensures fault.None? ==>
      (r.0.Returned? <==>
         item.consumer !in t || "consumer" !in t[item.consumer] || SameProvision(t[item.consumer], item))
    ensures r.0.Returned? ==> r.1 == t[item.consumer := RowItem(item, now)]
    ensures r.0.Threw? ==> r.1 == t
    ensures fault.None? && r.0.Threw? ==> r.0.thrown == ConflictError(item.consumer, item.provider)
    ensures fault.Some? ==> r.0.Threw?
    ensures fault.Some? && !Dynamo.IsConditionalFailure(fault.value) ==> r.0.thrown == fault.value
    ensures fault.Some? && Dynamo.IsConditionalFailure(fault.value) ==> r.0.thrown == ConflictError(item.consumer, item.provider)
  {
    ConditionHolds(Dynamo.Lookup(t, item.consumer), item);
    InsertWith(Condition, t, item, now, fault)
  }

  /** `hasStorageProvider`: whether a query on the consumer finds an item. */
  function HasStorageProvider(t: Dynamo.Table, consumer: string): (r: bool)
    ensures r <==> consumer in t
  {
    Dynamo.QueryCount(t, consumer) > 0
  }

  /** `count`: the item count the table description reports, or -1 without one. */
  function Count(d: Option<Dynamo.TableDescription>): (n: int)
    ensures n >= -1
    ensures n == -1 <==> d.None? || d.value.itemCount.None?
    ensures n >= 0 ==> d == Some(Dynamo.TableDescription(Some(n)))
  {
    Dynamo.ItemCountOrMinusOne(d)
  }

  /** The corrected request is well formed, and its condition holds exactly for a missing item or one for the same provision. */
  lemma ConditionHolds(stored: Option<Dynamo.Item>, item: ConsumerInput)
    ensures Dynamo.Placeholders(Condition) == Values(item).Keys
    ensures Dynamo.Holds(Condition, stored, Values(item)) <==>
      stored.None? || "consumer" !in stored.value || SameProvision(stored.value, item)
  {
    assert Values(item).Keys == {":cause", ":consumer", ":provider", ":order"};
    HoldsConditionOn("cause", ":cause", "order", ":order", stored, Values(item));
  }

  /** Whatever the bindings of its placeholders, the written condition fails on any item this table stores. */
  lemma ConditionAsWrittenFailsOnStoredItem(stored: ConsumerInput, at: string, values: map<string, string>)
    requires Dynamo.Placeholders(ConditionAsWritten) <= values.Keys
    ensures !Dynamo.Holds(ConditionAsWritten, Some(RowItem(stored, at)), values)
  {
    HoldsConditionOn("cid", ":cid", "customer", ":customer", Some(RowItem(stored, at)), values);
    assert "cid" !in RowItem(stored, at);
  }

  /** As written, not even the first insert into an empty table succeeds. */
  lemma FirstInsertRefusedAsWritten(item: ConsumerInput, now: string)
    ensures InsertAsWritten(map[], item, now, None) == (Threw(Dynamo.UndefinedValue), map[])
  {
    assert ":cid" in Dynamo.Placeholders(ConditionAsWritten);
    assert ":cid" !in Values(item);
  }

  /** Inserting the same provision again, at any later time, succeeds: the corrected insert is idempotent. */
  lemma ReinsertSucceeds(t: Dynamo.Table, item: ConsumerInput, now: string, later: string)
    requires Insert(t, item, now, None).0.Returned?
    ensures Insert(Insert(t, item, now, None).1, item, later, None).0.Returned?
    ensures Insert(Insert(t, item, now, None).1, item, later, None).1
         == Insert(t, item, now, None).1[item.consumer := RowItem(item, later)]
  {
    var t1 := Insert(t, item, now, None).1;
    assert t1[item.consumer] == RowItem(item, now);
    assert SameProvision(RowItem(item, now), item);
  }

  /** Once a consumer has an item, an insert of a different provision for it throws a `ConflictError`. */
  lemma DifferentProvisionConflicts(t: Dynamo.Table, first: ConsumerInput, second: ConsumerInput, now: string, later: string)
    requires Insert(t, first, now, None).0.Returned?
    requires second.consumer == first.consumer && second != first
    ensures Insert(Insert(t, first, now, None).1, second, later, None)
         == (Threw(ConflictError(second.consumer, second.provider)), Insert(t, first, now, None).1)
  {
    var t1 := Insert(t, first, now, None).1;
    assert t1[first.consumer] == RowItem(first, now);
  }

  /** Inserts keep every item under its own consumer. */
  lemma InsertKeepsKeying(t: Dynamo.Table, item: ConsumerInput, now: string, fault: Option<Failure>)
    requires KeyedByConsumer(t)
    ensures KeyedByConsumer(Insert(t, item, now, fault).1)
  {
  }

  /** After a successful insert the consumer has a provider; a thrown insert changes no answer. */
  lemma InsertThenHasStorageProvider(t: Dynamo.Table, item: ConsumerInput, now: string, fault: Option<Failure>, c: string)
    ensures Insert(t, item, now, fault).0.Returned? ==> HasStorageProvider(Insert(t, item, now, fault).1, item.consumer)
    ensures Insert(t, item, now, fault).0.Threw? ==> HasStorageProvider(Insert(t, item, now, fault).1, c) == HasStorageProvider(t, c)
    ensures c != item.consumer ==> HasStorageProvider(Insert(t, item, now, fault).1, c) == HasStorageProvider(t, c)
  {
  }
}

=== FILE: dynamo.dfy ===
/**
 * The part of DynamoDB the provisioning stores rely on: items whose
 * attributes are all strings, tables keyed by one attribute, conditional
 * `PutItem`, a key `Query` and the item count of `DescribeTable`.
 */
module Dynamo {
  import opened Variant

  /** A stored item: attribute name to string value (every attribute written here is an `S`). */
  type Item = map<string, string>

  /** A table with a hash key only: key value to the item stored under it. */
  type Table = map<string, Item>

  /** The condition expressions the stores use. */
  datatype Condition =
    | AttributeNotExists(attribute: string)
    | Equals(attribute: string, placeholder: string)
    | And(left: Condition, right: Condition)
    | Or(left: Condition, right: Condition)

  /** The `:name` value placeholders a condition refers to. */
  function Placeholders(c: Condition): set<string>
  {
    match c
    case AttributeNotExists(_) => {}
    case Equals(_, p) => {p}
    case And(l, r) => Placeholders(l) + Placeholders(r)
    case Or(l, r) => Placeholders(l) + Placeholders(r)
  }

  /**
   * Whether `c` holds of the item stored under the key (`None` when there is
   * none). A comparison with an attribute the item lacks is false.
   */
  function Holds(c: Condition, stored: Option<Item>, values: map<string, string>): bool
    requires Placeholders(c) <= values.Keys
  {
    match c
    case AttributeNotExists(a) => stored.None? || a !in stored.value
    case Equals(a, p) => stored.Some? && a in stored.value && stored.value[a] == values[p]
    case And(l, r) => Holds(l, stored, values) && Holds(r, stored, values)
    case Or(l, r) => Holds(l, stored, values) || Holds(r, stored, values)
  }

  function Lookup(t: Table, key: string): (r: Option<Item>)
    ensures r.Some? <==> key in t
  {
    if key in t then Some(t[key]) else None
  }

  datatype PutRequest = PutRequest(key: string, item: Item, condition: Condition, values: map<string, string>)

  datatype Response = Accepted | Rejected(error: Failure)

  const ConditionalRequestFailed := "The conditional request failed"
  const ConditionalCheckFailed := Failure("ConditionalCheckFailedException", ConditionalRequestFailed)
  const UndefinedValue := Failure("ValidationException", "Invalid ConditionExpression: An expression attribute value used in expression is not defined")
  const UnusedValues := Failure("ValidationException", "Value provided in ExpressionAttributeValues unused in expressions")

  /** A request is well formed when its values are exactly the placeholders its condition uses. */
  predicate WellFormed(req: PutRequest)
  {
    Placeholders(req.condition) == req.values.Keys
  }

  /**
   * Conditional `PutItem`. `fault` is an error raised before the request is
   * looked at (network, throttling). A request whose values do not match its
   * placeholders is refused; otherwise the item is written exactly when the
   * condition holds of the stored item, and a refused write changes nothing.
   */
  function Put(t: Table, req: PutRequest, fault: Option<Failure>): (r: (Response, Table))
    ensures r.0.Accepted? <==> fault.None? && WellFormed(req) && Holds(req.condition, Lookup(t, req.key), req.values)
    ensures r.0.Accepted? ==> r.1 == t[req.key := req.item]
    ensures r.0.Rejected? ==> r.1 == t
    ensures fault.Some? ==> r.0 == Rejected(fault.value)
    ensures fault.None? && WellFormed(req) && r.0.Rejected? ==> r.0.error == ConditionalCheckFailed
  {
    if fault.Some? then (Rejected(fault.value), t)
    else if !(Placeholders(req.condition) <= req.values.Keys) then (Rejected(UndefinedValue), t)
    else if !(req.values.Keys <= Placeholders(req.condition)) then (Rejected(UnusedValues), t)
    else if !Holds(req.condition, Lookup(t, req.key), req.values) then (Rejected(ConditionalCheckFailed), t)
    else (Accepted, t[req.key := req.item])
  }

  /** How the stores recognise a failed condition: by the error's message. */
  predicate IsConditionalFailure(e: Failure)
  {
    e.message == ConditionalRequestFailed
  }

  /** The number of items a `Query` on the hash key returns. */
  function QueryCount(t: Table, key: string): (n: nat)
    ensures n <= 1
    ensures n > 0 <==> key in t
  {
    if key in t then 1 else 0
  }

  /** What `DescribeTable` reports: the table, when there is one, and its item count, when known. */
  datatype TableDescription = TableDescription(itemCount: Option<nat>)

  /** `BigInt(result.Table?.ItemCount ?? -1)`. */
  function ItemCountOrMinusOne(d: Option<TableDescription>): (n: int)
    ensures n >= -1
    ensures n == -1 <==> d.None? || d.value.itemCount.None?
    ensures n >= 0 ==> d == Some(TableDescription(Some(n)))
  {
    match d
    case None => -1
    case Some(desc) =>
      match desc.itemCount
      case None => -1
      case Some(count) => count
  }
}

=== FILE: filecoin_stack.dfy ===
/**
 * The wiring of the filecoin pipeline: which piece-table change records each
 * stream consumer receives, how a carpark event becomes a piece-CID compute
 * message, and the batch sizes, timeouts and schedule the stack configures.
 * The handlers themselves are not part of this model.
 *
 * The status-update consumer filters on the event name `UPDATE`, but a
 * DynamoDB stream names a modification `MODIFY`. `PieceTableConsumersAsWritten`
 * keeps the filter as written; `PieceTableConsumers`, used by `Route`, filters
 * on `MODIFY`.
 */
module FilecoinStack {
  import opened Variant

  /** The piece status as the filters see it: the two terminal statuses, and any other. */
  datatype Status = Accepted | Invalid | OtherStatus

  /** The kind of change a stream record reports. */
  datatype ChangeKind = Insert | Modify | Remove

  /** The `eventName` a DynamoDB stream record carries for each kind of change. */
  function EventName(k: ChangeKind): string
  {
    match k
    case Insert => "INSERT"
    case Modify => "MODIFY"
    case Remove => "REMOVE"
  }

  /** A piece-table change record: its kind and the `stat` of the new image, when it has one. */
  datatype ChangeRecord = ChangeRecord(kind: ChangeKind, newStat: Option<Status>)

  /** One filter pattern: the event names it admits and, optionally, the new `stat` values it admits. */
  datatype Pattern = Pattern(eventNames: seq<string>, newStat: Option<seq<Status>>)

  predicate Matches(p: Pattern, rec: ChangeRecord)
  {
    && EventName(rec.kind) in p.eventNames
    && (p.newStat.Some? ==> rec.newStat.Some? && rec.newStat.value in p.newStat.value)
  }

  /** The functions that consume piece-table changes. */
  datatype Target = ContentClaim | FilecoinSubmit | StatusUpdate

  datatype StreamConsumer = StreamConsumer(target: Target, batchSize: nat, timeoutSeconds: nat, filters: seq<Pattern>)

  /** A consumer receives a record when it has no filters or one of its patterns matches. */
  predicate Receives(c: StreamConsumer, rec: ChangeRecord)
  {
    |c.filters| == 0 || exists i :: 0 <= i < |c.filters| && Matches(c.filters[i], rec)
  }

  const InsertOnly := Pattern(["INSERT"], None)
  const TerminalStats: seq<Status> := [Accepted, Invalid]

  /** The three piece-table consumers, with the status-update filter as written. */
  function PieceTableConsumersAsWritten(): seq<StreamConsumer>
  {
    [ StreamConsumer(ContentClaim, 1, 3 * 60, [InsertOnly]),
      StreamConsumer(FilecoinSubmit, 1, 3 * 60, [InsertOnly]),
      StreamConsumer(StatusUpdate, 1, 3 * 60, [Pattern(["UPDATE"], Some(TerminalStats))]) ]
  }

  /** The three piece-table consumers, with the status-update filter on the name streams use. */
  function PieceTableConsumers(): seq<StreamConsumer>
  {
    [ StreamConsumer(ContentClaim, 1, 3 * 60, [InsertOnly]),
      StreamConsumer(FilecoinSubmit, 1, 3 * 60, [InsertOnly]),
      StreamConsumer(StatusUpdate, 1, 3 * 60, [Pattern(["MODIFY"], Some(TerminalStats))]) ]
  }

  /** The consumers a record reaches. */
  function RouteWith(cs: seq<StreamConsumer>, rec: ChangeRecord): set<Target>
  {
    set i | 0 <= i < |cs| && Receives(cs[i], rec) :: cs[i].target
  }

  /** The routing of the corrected consumers; the stack as configured routes with `PieceTableConsumersAsWritten`. */
  function Route(rec: ChangeRecord): set<Target>
  {
    RouteWith(PieceTableConsumers(), rec)
  }

  predicate IsTerminal(stat: Option<Status>)
  {
    stat == Some(Accepted) || stat == Some(Invalid)
  }

  /** The routing the stack is meant to give: inserts to claims and submission, terminal updates to receipts. */
  function IntendedRoute(rec: ChangeRecord): set<Target>
  {
    match rec.kind
    case Insert => {ContentClaim, FilecoinSubmit}
    case Modify => if IsTerminal(rec.newStat) then {StatusUpdate} else {}
    case Remove => {}
  }

  lemma InsertOnlyMatches(rec: ChangeRecord)
    ensures Matches(InsertOnly, rec) <==> rec.kind == Insert
  {
    if rec.kind != Insert {
      assert EventName(rec.kind) != "INSERT";
    }
  }

  /** The corrected consumers route every record as intended. */
  lemma RouteIsIntended(rec: ChangeRecord)
    ensures Route(rec) == IntendedRoute(rec)
  {
    var cs := PieceTableConsumers();
    InsertOnlyMatches(rec);
    var statusPattern := cs[2].filters[0];
    assert Matches(statusPattern, rec) <==> rec.kind == Modify && IsTerminal(rec.newStat) by {
      if rec.kind != Modify {
        assert EventName(rec.kind) != "MODIFY";
      }
    }
    assert Receives(cs[0], rec) <==> Matches(cs[0].filters[0], rec);
    assert Receives(cs[1], rec) <==> Matches(cs[1].filters[0], rec);
    assert Receives(cs[2], rec) <==> Matches(statusPattern, rec);
    forall t | t in Route(rec)
      ensures t in IntendedRoute(rec)
    {
    }
    forall t | t in IntendedRoute(rec)
      ensures t in Route(rec)
    {
      if t == ContentClaim { assert Receives(cs[0], rec); }
      else if t == FilecoinSubmit { assert Receives(cs[1], rec); }
      else { assert Receives(cs[2], rec); }
    }
  }

  /** As written, no change record ever reaches the status-update consumer. */
  lemma StatusUpdateNeverReachedAsWritten(rec: ChangeRecord)
    ensures StatusUpdate !in RouteWith(PieceTableConsumersAsWritten(), rec)
    ensures RouteWith(PieceTableConsumersAsWritten(), rec) == IntendedRoute(rec) - {StatusUpdate}
  {
    var cs := PieceTableConsumersAsWritten();
    InsertOnlyMatches(rec);
    assert !Receives(cs[2], rec) by {
      assert "UPDATE" != EventName(rec.kind);
      assert !Matches(cs[2].filters[0], rec);
    }
    assert Receives(cs[0], rec) <==> Matches(cs[0].filters[0], rec);
    assert Receives(cs[1], rec) <==> Matches(cs[1].filters[0], rec);
    forall t | t in IntendedRoute(rec) - {StatusUpdate}
      ensures t in RouteWith(cs, rec)
    {
      if t == ContentClaim { assert Receives(cs[0], rec); }
      else { assert Receives(cs[1], rec); }
    }
  }

  /** The detail of a carpark "new CAR" event. */
  datatype CarparkDetail = CarparkDetail(region: string, bucketName: string, key: string)

  datatype BusEvent = BusEvent(source: string, detail: CarparkDetail)

  /** The message the piece-CID compute queue receives. */
  datatype ComputeMessage = ComputeMessage(bucketRegion: string, bucketName: string, key: string)

  /** The detail a compute message was made from. */
  function DetailOf(m: ComputeMessage): CarparkDetail
  {
    CarparkDetail(m.bucketRegion, m.bucketName, m.key)
  }

  /**
   * The `newCarToComputePiece` rule with its input transformer: events from
   * the carpark source become a compute message built from their detail;
   * others do not reach the queue. The source name is a parameter.
   */
  function ToComputeQueue(carparkSource: string, e: BusEvent): (m: Option<ComputeMessage>)
    ensures m.Some? <==> e.source == carparkSource
    ensures m.Some? ==> DetailOf(m.value) == e.detail
  {
    if e.source in [carparkSource] then
      Some(ComputeMessage(e.detail.region, e.detail.bucketName, e.detail.key))
    else None
  }

  /** The concatenation of a sequence of batches. */
  function Concat<T>(bs: seq<seq<T>>): seq<T>
  {
    if |bs| == 0 then [] else bs[0] + Concat(bs[1..])
  }

  /** `batches` splits `msgs`, in order, into invocations of at least one and at most `size` messages. */
  ghost predicate IsBatching<T>(batches: seq<seq<T>>, msgs: seq<T>, size: nat)
  {
    && (forall i :: 0 <= i < |batches| ==> 0 < |batches[i]| <= size)
    && Concat(batches) == msgs
  }

  /** With a batch size of one, every invocation handles exactly one message, in order. */
  lemma {:induction false} OneMessagePerInvocation<T>(batches: seq<seq<T>>, msgs: seq<T>)
    requires IsBatching(batches, msgs, 1)
    ensures |batches| == |msgs|
    ensures forall i :: 0 <= i < |batches| ==> batches[i] == [msgs[i]]
  {
    if |batches| > 0 {
      assert |batches[0]| == 1;
      assert msgs == batches[0] + Concat(batches[1..]);
      assert IsBatching(batches[1..], msgs[1..], 1) by {
        assert forall i :: 0 <= i < |batches[1..]| ==> batches[1..][i] == batches[i + 1];
      }
      OneMessagePerInvocation(batches[1..], msgs[1..]);
      forall i | 0 <= i < |batches|
        ensures batches[i] == [msgs[i]]
      {
        if i > 0 {
          assert batches[i] == batches[1..][i - 1];
        } else {
          assert batches[0] == [batches[0][0]];
        }
      }
    }
  }

  /** A queue and the batch size of its consumer. */
  datatype QueueConsumer = QueueConsumer(name: string, batchSize: nat)

  /** The settings the stack configures. */
  datatype Settings = Settings(
    queues: seq<QueueConsumer>,
    streamConsumers: seq<StreamConsumer>,
    computeTimeoutSeconds: nat,
    computeVisibilityTimeoutSeconds: nat,
    dealTrackRateMinutes: nat)

  /**
   * The stack's settings: every queue and stream consumer takes one message
   * per invocation, the compute queue hides a message for as long as the
   * compute function may run (15 minutes), and deals are tracked every 5 minutes.
   */
  function Stack(): (s: Settings)
    ensures |s.queues| == 3 && forall q :: q in s.queues ==> q.batchSize == 1
    ensures s.streamConsumers == PieceTableConsumersAsWritten()
    ensures forall c :: c in s.streamConsumers ==> c.batchSize == 1
    ensures s.computeVisibilityTimeoutSeconds == s.computeTimeoutSeconds == 15 * 60
    ensures s.dealTrackRateMinutes == 5
  {
    Settings(
      [QueueConsumer("filecoin-submit-queue", 1), QueueConsumer("piece-offer-queue", 1), QueueConsumer("piece-cid-compute-queue", 1)],
      PieceTableConsumersAsWritten(),
      15 * 60,
      15 * 60,
      5)
  }

  /** Every queue the stack configures delivers one message per invocation, in order. */
  lemma ConfiguredQueueOneMessagePerInvocation<T>(q: QueueConsumer, batches: seq<seq<T>>, msgs: seq<T>)
    requires q in Stack().queues && IsBatching(batches, msgs, q.batchSize)
    ensures |batches| == |msgs|
    ensures forall i :: 0 <= i < |batches| ==> batches[i] == [msgs[i]]
  {
    OneMessagePerInvocation(batches, msgs);
  }

  /** Every piece-table stream consumer the stack configures handles one record per invocation, in order. */
  lemma ConfiguredStreamOneMessagePerInvocation<T>(c: StreamConsumer, batches: seq<seq<T>>, msgs: seq<T>)
    requires c in Stack().streamConsumers && IsBatching(batches, msgs, c.batchSize)
    ensures |batches| == |msgs|
    ensures forall i :: 0 <= i < |batches| ==> batches[i] == [msgs[i]]
  {
    OneMessagePerInvocation(batches, msgs);
  }
}

=== FILE: provision_store.dfy ===
/**
 * `useProvisionStore`: a provision is recorded in two steps, first a
 * subscription for the customer, then a consumer item for the space, both
 * with the customer as their `order`. A failing subscription insert rejects
 * the whole call; a failing consumer insert is returned as `{ error }`.
 * The subscription table is not part of this model: how its insert settles
 * is a parameter.
 */
module ProvisionStore {
  import opened Variant
  import Dynamo
  import opened Provisioning
  import ConsumerTable

  /** The subscription `put` asks the subscription table to insert. */
  datatype SubscriptionInput = SubscriptionInput(cause: string, provider: string, customer: string, order: string)

  /** What `put` does: how it settles, the consumer table afterwards, and the inserts it issues, in order. */
  datatype PutEffect = PutEffect(
    result: Completion<Result<(), Failure>>,
    consumers: Dynamo.Table,
    subscription: SubscriptionInput,
    consumerInsert: Option<ConsumerTable.ConsumerInput>)

  /** The consumer insert `put` issues for a provision: the customer is its order. */
  function ConsumerInputOf(p: Provision): ConsumerTable.ConsumerInput
  {
    ConsumerTable.ConsumerInput(p.consumer, p.provider, p.customer, p.cause)
  }

  /**
   * How `put` settles, given how the subscription insert settled and what the
   * consumer insert did: a subscription failure is rethrown before any
   * consumer insert, and a consumer-insert throw is caught and returned.
   */
  function Settle(consumers: Dynamo.Table, p: Provision, subscriptionFailure: Option<Failure>,
                  inserted: (Completion<()>, Dynamo.Table)): PutEffect
  {
    var subscription := SubscriptionInput(p.cause, p.provider, p.customer, p.customer);
    match subscriptionFailure
    case Some(e) => PutEffect(Threw(e), consumers, subscription, None)
    case None =>
      match inserted.0
      case Returned(_) => PutEffect(Returned(Ok(())), inserted.1, subscription, Some(ConsumerInputOf(p)))
      case Threw(e) => PutEffect(Returned(Error(e)), inserted.1, subscription, Some(ConsumerInputOf(p)))
  }

  /**
   * `put`, over the consumer table with the corrected insert condition.
   * `subscriptionFailure` is the error the subscription insert throws, if any;
   * `now` and `fault` go to the consumer insert. The subscription is always
   * asked for first, ordered by the customer; the consumer insert is issued
   * only after it succeeded, and its failure is returned, not thrown.
   */
  function Put(consumers: Dynamo.Table, p: Provision, now: string, subscriptionFailure: Option<Failure>, fault: Option<Failure>)
    : (r: PutEffect)
    ensures r.subscription == SubscriptionInput(p.cause, p.provider, p.customer, p.customer)
    ensures subscriptionFailure.Some? ==>
      r.result == Threw(subscriptionFailure.value) && r.consumers == consumers && r.consumerInsert.None?
    ensures subscriptionFailure.None? ==>
      r.result.Returned? && r.consumerInsert == Some(ConsumerInputOf(p))
    ensures r.result == Returned(Ok(())) ==> ConsumerTable.HasStorageProvider(r.consumers, p.consumer)
    ensures r.result == Returned(Ok(())) ==>
      r.consumers == consumers[p.consumer := ConsumerTable.RowItem(ConsumerInputOf(p), now)]
    ensures r.result.Returned? && r.result.value.Error? ==>
      r.consumers == consumers && r.consumerInsert.Some?
      && ConsumerTable.Insert(consumers, r.consumerInsert.value, now, fault).0 == Threw(r.result.value.error)
    ensures subscriptionFailure.None? ==>
      (r.result == Returned(Ok(())) <==> ConsumerTable.Insert(consumers, ConsumerInputOf(p), now, fault).0.Returned?)
    ensures subscriptionFailure.None? && fault.Some? ==>
      r.result.Returned? && r.result.value.Error? && r.consumers == consumers
    ensures subscriptionFailure.None? && fault.None? ==>
      (r.result == Returned(Ok(())) <==>
        p.consumer !in consumers || "consumer" !in consumers[p.consumer]
        || ConsumerTable.SameProvision(consumers[p.consumer], r.consumerInsert.value))
  {
    Settle(consumers, p, subscriptionFailure, ConsumerTable.Insert(consumers, ConsumerInputOf(p), now, fault))
  }

  /**
   * `put` over the consumer insert as the source writes it: once the
   * subscription insert succeeds, the consumer insert always throws, so the
   * call never resolves `{ ok: {} }`; without a fault it resolves with the
   * undefined-placeholder validation error, and the consumer table is never
   * written.
   */
  function PutAsWritten(consumers: Dynamo.Table, p: Provision, now: string, subscriptionFailure: Option<Failure>, fault: Option<Failure>)
    : (r: PutEffect)
    ensures r.consumers == consumers
    ensures r.result != Returned(Ok(()))
    ensures subscriptionFailure.Some? ==> r.result == Threw(subscriptionFailure.value) && r.consumerInsert.None?
    ensures subscriptionFailure.None? ==> r.result.Returned? && r.result.value.Error?
    ensures subscriptionFailure.None? && fault.None? ==> r.result == Returned(Error(Dynamo.UndefinedValue))
  {
    Settle(consumers, p, subscriptionFailure, ConsumerTable.InsertAsWritten(consumers, ConsumerInputOf(p), now, fault))
  }

  /** `hasStorageProvider`: the consumer table's answer, as `{ ok }`. */
  function HasStorageProvider(consumers: Dynamo.Table, consumer: string): (r: Result<bool, Failure>)
    ensures r.Ok?
    ensures r.ok <==> consumer in consumers
  {
    Ok(ConsumerTable.HasStorageProvider(consumers, consumer))
  }

  /** `count`: the consumer table's count. */
  function Count(d: Option<Dynamo.TableDescription>): (n: int)
    ensures n >= -1
    ensures n == -1 <==> d.None? || d.value.itemCount.None?
    ensures n >= 0 ==> d == Some(Dynamo.TableDescription(Some(n)))
  {
    ConsumerTable.Count(d)
  }

  /** Two provisions for one customer ask for subscriptions under the same order key, whatever their spaces. */
  lemma OneSubscriptionOrderPerCustomer(consumers: Dynamo.Table, p: Provision, q: Provision, now: string, later: string,
                                        f1: Option<Failure>, f2: Option<Failure>, g1: Option<Failure>, g2: Option<Failure>)
    requires p.customer == q.customer
    ensures Put(consumers, p, now, f1, g1).subscription.order == Put(consumers, q, later, f2, g2).subscription.order == p.customer
  {
  }

  /** On an empty consumer table with no faults, `put` as written resolves the validation error where the corrected `put` succeeds. */
  lemma PutAsWrittenNeverRecords(p: Provision, now: string)
    ensures PutAsWritten(map[], p, now, None, None).result == Returned(Error(Dynamo.UndefinedValue))
    ensures Put(map[], p, now, None, None).result == Returned(Ok(()))
  {
  }

  /** Provisioning a space again with the same provision succeeds again. */
  lemma PutAgainSucceeds(consumers: Dynamo.Table, p: Provision, now: string, later: string)
    requires Put(consumers, p, now, None, None).result == Returned(Ok(()))
    ensures Put(Put(consumers, p, now, None, None).consumers, p, later, None, None).result == Returned(Ok(()))
  {
    ConsumerTable.ReinsertSucceeds(consumers, ConsumerInputOf(p), now, later);
  }

  /** Provisioning a provisioned space with a different provider returns, not throws, a `ConflictError`. */
  lemma PutOtherProviderReturnsConflict(consumers: Dynamo.Table, p: Provision, q: Provision, now: string, later: string)
    requires Put(consumers, p, now, None, None).result == Returned(Ok(()))
    requires q.consumer == p.consumer && q.provider != p.provider
    ensures var r := Put(Put(consumers, p, now, None, None).consumers, q, later, None, None);
            r.result == Returned(Error(ConflictError(q.consumer, q.provider)))
            && r.consumers == Put(consumers, p, now, None, None).consumers
  {
    ConsumerTable.DifferentProvisionConflicts(consumers, ConsumerInputOf(p), ConsumerInputOf(q), now, later);
  }
}

=== FILE: provisioning.dfy ===
/**
 * What the provisioning stores share: the provision they record, the conflict
 * they report, and the shape of their write condition,
 * `attribute_not_exists(consumer) OR ((a1 = p1) AND (consumer = :consumer) AND (provider = :provider) AND (a4 = p4))`.
 */
module Provisioning {
  import opened Variant
  import Dynamo

  /** A provision: the invocation that asked for it (as its CID text) and the three parties. */
  datatype Provision = Provision(cause: string, consumer: string, customer: string, provider: string)

  /** The `ConflictError` both stores raise when a space already has a provider. */
  function ConflictError(consumer: string, provider: string): (e: Failure)
    ensures e.name == "ConflictError"
  {
    Failure("ConflictError", "Space " + consumer + " cannot be provisioned with " + provider + ": it already has a provider")
  }

  /** `attribute_not_exists(consumer) OR ((a1 = p1) AND (consumer = :consumer) AND (provider = :provider) AND (a4 = p4))`. */
  function ConditionOn(a1: string, p1: string, a4: string, p4: string): Dynamo.Condition
  {
    Dynamo.Or(Dynamo.AttributeNotExists("consumer"),
      Dynamo.And(Dynamo.And(Dynamo.And(Dynamo.Equals(a1, p1), Dynamo.Equals("consumer", ":consumer")),
                            Dynamo.Equals("provider", ":provider")),
                 Dynamo.Equals(a4, p4)))
  }

  /** An item carries attribute `a` with value `v`. */
  predicate HasValue(stored: Dynamo.Item, a: string, v: string)
  {
    a in stored && stored[a] == v
  }

  /** What `ConditionOn` means: no item, an item without a consumer, or an item agreeing on all four comparisons. */
  lemma HoldsConditionOn(a1: string, p1: string, a4: string, p4: string, stored: Option<Dynamo.Item>, values: map<string, string>)
    requires Dynamo.Placeholders(ConditionOn(a1, p1, a4, p4)) <= values.Keys
    ensures Dynamo.Placeholders(ConditionOn(a1, p1, a4, p4)) == {p1, ":consumer", ":provider", p4}
    ensures Dynamo.Holds(ConditionOn(a1, p1, a4, p4), stored, values) <==>
      || stored.None?
      || "consumer" !in stored.value
      || (&& HasValue(stored.value, a1, values[p1]) && HasValue(stored.value, "consumer", values[":consumer"])
          && HasValue(stored.value, "provider", values[":provider"]) && HasValue(stored.value, a4, values[p4]))
  {
    var e1 := Dynamo.Equals(a1, p1);
    var e2 := Dynamo.Equals("consumer", ":consumer");
    var e3 := Dynamo.Equals("provider", ":provider");
    var e4 := Dynamo.Equals(a4, p4);
    var and12 := Dynamo.And(e1, e2);
    var and123 := Dynamo.And(and12, e3);
    var all := Dynamo.And(and123, e4);
    var absent := Dynamo.AttributeNotExists("consumer");
    assert ConditionOn(a1, p1, a4, p4) == Dynamo.Or(absent, all);
    assert Dynamo.Placeholders(and12) == {p1, ":consumer"};
    assert Dynamo.Placeholders(and123) == {p1, ":consumer", ":provider"};
    assert Dynamo.Placeholders(all) == {p1, ":consumer", ":provider", p4};
    assert Dynamo.Placeholders(absent) == {};
    assert Dynamo.Holds(all, stored, values) <==> Dynamo.Holds(and123, stored, values) && Dynamo.Holds(e4, stored, values);
    assert Dynamo.Holds(and123, stored, values) <==> Dynamo.Holds(and12, stored, values) && Dynamo.Holds(e3, stored, values);
    assert Dynamo.Holds(and12, stored, values) <==> Dynamo.Holds(e1, stored, values) && Dynamo.Holds(e2, stored, values);
    assert Dynamo.Holds(absent, stored, values) <==> stored.None? || "consumer" !in stored.value;
    if stored.Some? {
      assert Dynamo.Holds(e1, stored, values) <==> HasValue(stored.value, a1, values[p1]);
      assert Dynamo.Holds(e2, stored, values) <==> HasValue(stored.value, "consumer", values[":consumer"]);
      assert Dynamo.Holds(e3, stored, values) <==> HasValue(stored.value, "provider", values[":provider"]);
      assert Dynamo.Holds(e4, stored, values) <==> HasValue(stored.value, a4, values[p4]);
    }
  }
}

=== FILE: provisions_storage.dfy ===
/**
 * `useProvisionsStorage`: provisions are written to the subscriptions table,
 * one item per consumer, by a conditional put that accepts a new consumer or
 * an identical item and refuses anything else with a returned
 * `ConflictError`; any other error is rethrown. Whether a consumer has a
 * storage provider is read from the consumers table, which `put` never writes.
 */
module ProvisionsStorage {
  import opened Variant
  import Dynamo
  import opened Provisioning

  /** The two tables the store uses. */
  datatype State = State(subscriptions: Dynamo.Table, consumers: Dynamo.Table)

  /** The item `put` writes. */
  function RowItem(p: Provision): Dynamo.Item
  {
    map["cid" := p.cause, "consumer" := p.consumer, "provider" := p.provider, "customer" := p.customer]
  }

  function Values(p: Provision): map<string, string>
  {
    map[":cid" := p.cause, ":consumer" := p.consumer, ":provider" := p.provider, ":customer" := p.customer]
  }

  const Condition := ConditionOn("cid", ":cid", "customer", ":customer")

  /** The stored item records the same provision as `p`. */
  predicate Agrees(stored: Dynamo.Item, p: Provision)
  {
    && HasValue(stored, "cid", p.cause) && HasValue(stored, "consumer", p.consumer)
    && HasValue(stored, "provider", p.provider) && HasValue(stored, "customer", p.customer)
  }

  /** The consumer has no item yet, or one that the condition cannot tell apart from a missing one. */
  predicate Vacant(t: Dynamo.Table, consumer: string)
  {
    consumer !in t || "consumer" !in t[consumer]
  }

  lemma ConditionHolds(stored: Option<Dynamo.Item>, p: Provision)
    ensures Dynamo.Placeholders(Condition) == Values(p).Keys
    ensures Dynamo.Holds(Condition, stored, Values(p)) <==>
      stored.None? || "consumer" !in stored.value || Agrees(stored.value, p)
  {
    assert Values(p).Keys == {":cid", ":consumer", ":provider", ":customer"};
    HoldsConditionOn("cid", ":cid", "customer", ":customer", stored, Values(p));
  }

  /**
   * `put`: with no fault it resolves, with `{ ok: {} }` exactly when the
   * consumer is vacant or already holds the same provision (and then stores
   * the item), and with `{ error: ConflictError }` otherwise. A fault is
   * rethrown unless its message is the conditional failure's. Only a
   * successful put changes anything, and never the consumers table.
   */
  function Put(s: State, p: Provision, fault: Option<Failure>): (r: (Completion<Result<(), Failure>>, State))
    ensures r.1.consumers == s.consumers
    ensures fault.None? ==> r.0.Returned?
    ensures fault.None? ==>
      (r.0 == Returned(Ok(())) <==> Vacant(s.subscriptions, p.consumer) || Agrees(s.subscriptions[p.consumer], p))
    ensures r.0 == Returned(Ok(())) ==> r.1.subscriptions == s.subscriptions[p.consumer := RowItem(p)]
    ensures r.0 != Returned(Ok(())) ==> r.1 == s
    ensures r.0.Returned? && r.0.value.Error? ==> r.0.value.error == ConflictError(p.consumer, p.provider)
    ensures fault.Some? && Dynamo.IsConditionalFailure(fault.value) ==>
      r.0 == Returned(Error(ConflictError(p.consumer, p.provider)))
    ensures fault.Some? && !Dynamo.IsConditionalFailure(fault.value) ==> r.0 == Threw(fault.value)
  {
    ConditionHolds(Dynamo.Lookup(s.subscriptions, p.consumer), p);
    var req := Dynamo.PutRequest(p.consumer, RowItem(p), Condition, Values(p));
    var (resp, subscriptions) := Dynamo.Put(s.subscriptions, req, fault);
    match resp
    case Accepted => (Returned(Ok(())), s.(subscriptions := subscriptions))
    case Rejected(e) =>
      if Dynamo.IsConditionalFailure(e) then (Returned(Error(ConflictError(p.consumer, p.provider))), s)
      else (Threw(e), s)
  }

  /** `hasStorageProvider`: `{ ok: true }` exactly when the consumers table has an item for the consumer. */
  function HasStorageProvider(s: State, consumer: string): (r: Result<bool, Failure>)
    ensures r.Ok?
    ensures r.ok <==> consumer in s.consumers
  {
    Ok(Dynamo.QueryCount(s.consumers, consumer) > 0)
  }

  /** `count`: the consumers table's item count, or -1 when the description has none. */
  function Count(d: Option<Dynamo.TableDescription>): (n: int)
    ensures n >= -1
    ensures n == -1 <==> d.None? || d.value.itemCount.None?
    ensures n >= 0 ==> d == Some(Dynamo.TableDescription(Some(n)))
  {
    Dynamo.ItemCountOrMinusOne(d)
  }

  /** Putting an item identical to the stored one succeeds and changes nothing. */
  lemma PutIdenticalLeavesState(s: State, p: Provision)
    requires p.consumer in s.subscriptions && s.subscriptions[p.consumer] == RowItem(p)
    ensures Put(s, p, None) == (Returned(Ok(())), s)
  {
    assert s.subscriptions[p.consumer := RowItem(p)] == s.subscriptions;
  }

  /** `put` is idempotent: a second identical put after a successful one succeeds and changes nothing. */
  lemma PutIdempotent(s: State, p: Provision)
    requires Put(s, p, None).0 == Returned(Ok(()))
    ensures Put(Put(s, p, None).1, p, None) == Put(s, p, None)
  {
    var s1 := Put(s, p, None).1;
    assert s1.subscriptions[p.consumer] == RowItem(p);
    PutIdenticalLeavesState(s1, p);
  }

  /** A put that differs in any field from the stored provision of its consumer returns a `ConflictError` and changes nothing. */
  lemma PutDifferingConflicts(s: State, p: Provision, q: Provision)
    requires Put(s, p, None).0 == Returned(Ok(()))
    requires q.consumer == p.consumer && q != p
    ensures Put(Put(s, p, None).1, q, None) == (Returned(Error(ConflictError(q.consumer, q.provider))), Put(s, p, None).1)
  {
    var s1 := Put(s, p, None).1;
    assert s1.subscriptions[p.consumer] == RowItem(p);
  }

  /** `put` alone never changes what `hasStorageProvider` answers, for any consumer. */
  lemma PutKeepsHasStorageProvider(s: State, p: Provision, fault: Option<Failure>, consumer: string)
    ensures HasStorageProvider(Put(s, p, fault).1, consumer) == HasStorageProvider(s, consumer)
  {
  }
}

=== FILE: upload_add_metrics.dfy ===
/**
 * The upload-add total metric: from a batch of UCAN invocations, keep the
 * receipts that carry an `upload/add` capability, forward all of their
 * capabilities in order, and hand that list to the counter in one call.
 */
module UploadAddMetrics {
  import opened Variant

  const UploadAdd := "upload/add"

  /** What a stream entry holds: a workflow or a receipt. */
  datatype ContentType = Workflow | Receipt

  /** A capability: the ability invoked and the resource it is invoked on. */
  datatype Capability = Capability(can: string, with: string)

  datatype Invocation = Invocation(kind: ContentType, att: seq<Capability>)

  /** `att.find(a => a.can === UPLOAD_ADD)`: the first `upload/add` capability, if any. */
  function FindUploadAdd(att: seq<Capability>): (r: Option<Capability>)
    ensures r.Some? <==> exists i :: 0 <= i < |att| && att[i].can == UploadAdd
    ensures r.Some? ==> r.value in att && r.value.can == UploadAdd
    ensures r.Some? ==> exists i :: 0 <= i < |att| && att[i] == r.value && forall j :: 0 <= j < i ==> att[j].can != UploadAdd
  {
    if |att| == 0 then None
    else if att[0].can == UploadAdd then Some(att[0])
    else
      var r := FindUploadAdd(att[1..]);
      assert forall i :: 1 <= i < |att| ==> att[i] == att[1..][i - 1];
      if r.Some? then
        var k :| 0 <= k < |att[1..]| && att[1..][k] == r.value && forall j :: 0 <= j < k ==> att[1..][j].can != UploadAdd;
        assert att[k + 1] == r.value && forall j :: 0 <= j < k + 1 ==> att[j].can != UploadAdd;
        r
      else r
  }

  /** The filter's test: an `upload/add` capability, in a receipt. */
  predicate Selected(inv: Invocation)
  {
    FindUploadAdd(inv.att).Some? && inv.kind == Receipt
  }

  /** The capabilities one invocation contributes. */
  function Contribution(inv: Invocation): seq<Capability>
  {
    if Selected(inv) then inv.att else []
  }

  /** `filter(...).flatMap(inv => inv.att)`. */
  function UploadAddCapabilities(batch: seq<Invocation>): seq<Capability>
  {
    if |batch| == 0 then [] else Contribution(batch[0]) + UploadAddCapabilities(batch[1..])
  }

  /** The total number of capabilities of the selected invocations. */
  function SelectedCapabilityCount(batch: seq<Invocation>): nat
  {
    if |batch| == 0 then 0
    else (if Selected(batch[0]) then |batch[0].att| else 0) + SelectedCapabilityCount(batch[1..])
  }

  /** Selection distributes over concatenation of batches, so output order follows input order. */
  lemma {:induction false} SelectionDistributes(a: seq<Invocation>, b: seq<Invocation>)
    ensures UploadAddCapabilities(a + b) == UploadAddCapabilities(a) + UploadAddCapabilities(b)
  {
    if |a| > 0 {
      assert (a + b)[1..] == a[1..] + b;
      SelectionDistributes(a[1..], b);
    } else {
      assert a + b == b;
    }
  }

  /** A capability is forwarded exactly when some selected invocation carries it, `upload/add` or not. */
  lemma {:induction false} ForwardedExactly(batch: seq<Invocation>, c: Capability)
    ensures c in UploadAddCapabilities(batch) <==>
      exists i :: 0 <= i < |batch| && Selected(batch[i]) && c in batch[i].att
  {
    if |batch| > 0 {
      ForwardedExactly(batch[1..], c);
      assert forall i :: 1 <= i < |batch| ==> batch[i] == batch[1..][i - 1];
      if c in UploadAddCapabilities(batch[1..]) {
        var j :| 0 <= j < |batch[1..]| && Selected(batch[1..][j]) && c in batch[1..][j].att;
        assert Selected(batch[j + 1]) && c in batch[j + 1].att;
      }
    }
  }

  /** The output is as long as the selected invocations' capability lists together. */
  lemma {:induction false} OutputLength(batch: seq<Invocation>)
    ensures |UploadAddCapabilities(batch)| == SelectedCapabilityCount(batch)
  {
    if |batch| > 0 {
      OutputLength(batch[1..]);
    }
  }

  /**
   * `updateUploadAddTotal`: returns the argument of every
   * `incrementUploadAddTotal` call it makes. There is exactly one, holding the
   * selected capabilities, even when there are none.
   */
  method UpdateUploadAddTotal(batch: seq<Invocation>) returns (calls: seq<seq<Capability>>)
    ensures |calls| == 1
    ensures calls[0] == UploadAddCapabilities(batch)
    ensures |calls[0]| == SelectedCapabilityCount(batch)
  {
    var selected: seq<Capability> := [];
    var i := 0;
    while i < |batch|
      invariant 0 <= i <= |batch|
      invariant selected == UploadAddCapabilities(batch[..i])
    {
      assert batch[..i + 1] == batch[..i] + [batch[i]];
      SelectionDistributes(batch[..i], [batch[i]]);
      assert UploadAddCapabilities([batch[i]]) == Contribution(batch[i]);
      if FindUploadAdd(batch[i].att).Some? && batch[i].kind == Receipt {
        selected := selected + batch[i].att;
      }
      i := i + 1;
    }
    assert batch[..i] == batch;
    OutputLength(batch);
    calls := [selected];
  }
}

=== FILE: variant.dfy ===
/**
 * Result shapes shared by the codecs, the stores and the handlers: the
 * `{ ok }` | `{ error }` variant the services return, the error objects they
 * carry, and how an asynchronous call settles (it resolves or it rejects).
 */
module Variant {

  datatype Option<+T> = None | Some(value: T)

  /** The `{ ok }` | `{ error }` variant. */
  datatype Result<+T, +E> = Ok(ok: T) | Error(error: E)

  /** A JavaScript error object, reduced to its `name` and its `message`. */
  datatype Failure = Failure(name: string, message: string)

  /** How a promise settles: it resolves with a value, or it rejects with a thrown error. */
  datatype Completion<+T> = Returned(value: T) | Threw(thrown: Failure)
}
